=== FILE: README.md ===
# Cleaner robots on a torus: a Dafny model of `visualize.py`

The program is a Mesa agent-based simulation. Cleaner robots wander an M by N toroidal grid
that holds several entities per cell. The grid is seeded with `DirtyCell` entities. The parts
modelled here are these:

- **`DirtyCell`**: a passive entity whose `step` does nothing.
- **`CleanerAgent.step`**: the cleaner looks at its cellmates. If one is a `DirtyCell`, it
  removes the first one from the grid and the schedule and decrements `numDirtyCells`.
  Otherwise it moves to one of the eight wrapped Moore neighbours and `totalAgentMovements`
  grows by one.
- **`CleanerModel.__init__`**: computes `numDirtyCells = int(M*N*pCells)` and sets `running`.
  It places each `DirtyCell` on an empty cell using a retry-until-empty loop, then stacks every
  cleaner on (1, 1).
- **`CleanerModel.step`**: sets `pCleanCells` and `running` from the count the previous step
  left. It then recounts the live `DirtyCell`s, collects the metrics row, and activates every
  entity once in a shuffled order.

The model is functional. A `State.Sim` record holds:

- the grid, as a map from cell to its occupant list in placement order;
- each placed entity's position;
- the schedule, as the live entities in insertion order;
- the two counters, `pCleanCells`, `running` and the collected metrics rows.

Every random choice is an explicit input:

- the neighbour index a moving cleaner draws (`Space.NeighbourIndex`, 0..7);
- the shuffled activation order, any permutation of the schedule;
- the sequence of `(randrange(M), randrange(N))` draws used while seeding.

Modules follow the program's layers. `Seqs` holds sequence helpers (`list.remove`,
de-duplication). `Space` is the toroidal `MultiGrid`. `State` holds the entities, the model
state and the grid/schedule consistency invariant. `Agents` holds the two entity behaviours.
`Activation` is `RandomActivation.step`. `CleanerModel` holds construction and `step`.

Behaviour of the code worth noting:

- The grid is built with `torus=True` (visualize.py:61). Neighbourhoods wrap, so a corner cell
  has eight neighbours.
- The dirty count is `int(...)`, which truncates toward zero.
- Construction does not reject `pCells` outside [0, 1]. The count is negative only when
  `M*N*pCells <= -1`: then no `DirtyCell` is seeded, `running` starts false, the first
  `pCleanCells` exceeds 1, and the cleaner ids start from that negative count (visualize.py:89).
  A `pCells` with `-1 < M*N*pCells < 0` truncates to a count of 0: no `DirtyCell` is seeded,
  `running` starts false, the first `pCleanCells` exceeds 1, and the cleaner ids start from 0.
- With a negative count, `pCleanCells` is above 1 at the first step and falls to exactly 1
  at the second. The first step recounts the (zero) live `DirtyCell`s, so the fraction never
  rises above 1 again and never falls after that.
- A count larger than M*N makes the seeding loop spin forever. It is not reported as an error.

## Model

| member | source | states |
|---|---|---|
| `Agents.IsDirty` | visualize.py:37-42 | The result is `None` exactly when no cellmate is a `DirtyCell`. Otherwise it is a `DirtyCell` among the cellmates, and no cellmate before it is a `DirtyCell`. |
| `Agents.CleanCell` | visualize.py:32-35 | `clean_cell` as a state update. Its contract is carried by `CleanCellConsistent` and `CleanCellEffect` below. |
| `Agents.CleanCellConsistent` | visualize.py:32-35 | Removing an entity from its grid cell and from the schedule keeps grid and schedule consistent. |
| `Agents.CleanCellEffect` | visualize.py:32-35 | `clean_cell(d)` takes `d` out of the schedule and off every grid cell. Every other entity keeps its place and only `d`'s cell changes. `numDirtyCells` drops by one and the live `DirtyCell` count drops by one (for a `DirtyCell` d, the only kind `clean_cell` receives). |
| `Agents.Move` | visualize.py:22-30 | `move_agent` to a cell other than the mover's own records the target as the mover's position and puts the mover in the target cell's list. The set of placed entities is unchanged and nobody else moves. The grid side is stated by `Space.MoveAgent` and `MoveConsistent`. |
| `Agents.MoveConsistent` | visualize.py:22-30 | Moving a placed entity to a wrapped Moore neighbour of its cell keeps grid and schedule consistent. |
| `Agents.CleanerStep` | visualize.py:44-53 | `CleanerAgent.step` with the neighbour draw as an input. Its contract is carried by `CleanerStepConsistent`, `CleanerStepCleans` and `CleanerStepMoves` below. |
| `Agents.CleanerStepConsistent` | visualize.py:44-53 | A cleaner's step keeps grid and schedule consistent. |
| `Agents.CleanerStepCleans` | visualize.py:44-50 | If the cleaner's cell holds a `DirtyCell`, the step removes exactly the first one (as `is_dirty` finds it) from grid and schedule and decrements the counter. The cleaner's position and `totalAgentMovements` are unchanged, and every other entity is untouched. |
| `Agents.CleanerStepMoves` | visualize.py:44-53 | If the cell holds no `DirtyCell`, the cleaner moves to a wrapped Moore neighbour of its cell, other than the cell itself. `totalAgentMovements` grows by exactly one, no entity is removed, and no other entity moves. |
| `Space.Neighbourhood` | visualize.py:23-27 | The wrapped eight-cell `get_neighborhood`. Its contract is carried by `NeighbourhoodIsMoore`. |
| `Space.NeighbourhoodIsMoore` | visualize.py:22-30 | The wrapped `get_neighborhood(moore=True, include_center=False)` lists eight distinct cells. A cell is listed iff it is in bounds, is not the centre, and is ring-adjacent to the centre in both coordinates. Both directions are proved. |
| `Space.PlaceAgent` | visualize.py:84-85 | `place_agent` appends the entity to the target cell's list, and every other cell is unchanged. |
| `Space.RemoveAgent` | visualize.py:33 | `remove_agent` takes one copy of the entity out of its cell's list (as multisets), and every other cell is unchanged. |
| `Space.MoveAgent` | visualize.py:30 | `move_agent` between two different cells takes the entity out of the old list, appends it to the new one, and changes no other cell. |
| `State.CountDirty` | visualize.py:98 | The recount of live `DirtyCell`s. Its contract is carried by `State.CountKindZero` (zero iff no `DirtyCell`), `State.CountKindRemove` (one removal lowers it by one) and `State.CountKindPermutation` (independent of order). |
| `State.CountKindZero` | visualize.py:98 | The count of a kind is zero iff no entity of that kind is present. |
| `State.CountKindRemove` | visualize.py:98 | Removing one present entity lowers the count of its own kind by one and leaves the other kind's count unchanged. |
| `State.CountKindPermutation` | visualize.py:98 | Two sequences with the same entities (as multisets) have the same count of each kind. |
| `State.ScheduledIffOnGrid` | visualize.py:33-34 | Under the consistency invariant, an entity is in the schedule iff it is on the grid. |
| `State.CleanFractionBounds` | visualize.py:94 | `(N*M - d)/(N*M)` lies in [0, 1] when 0 <= d <= M*N. It does not increase as `d` grows. |
| `State.CleanFractionOutside` | visualize.py:94 | The same fraction is above 1 for a negative `d` and exactly 1 for `d == 0`. |
| `Activation.Activate` | visualize.py:14-53 | One entity's `step`: the `DirtyCell` no-op or `CleanerAgent.step`. The result is consistent; the effect is stated by `ActivateEffect`. |
| `Activation.ActivateEffect` | visualize.py:14-53 | One activation adds no entity and removes no cleaner. No `DirtyCell` moves, and `DirtyCell`s stay on separate cells. The counter changes as much as the live `DirtyCell` count. A cleaner either cleans once or moves once. A `DirtyCell`'s step returns the state unchanged, and no entity other than the activated one changes position. |
| `Activation.ActivateAll` | visualize.py:101 | `schedule.step()` over a given order, skipping entities already removed in the pass. The result is consistent; the effect is stated by `ActivateAllEffect`. |
| `Activation.ActivateAllEffect` | visualize.py:101 | Across a whole activation pass, with removed entities skipped: consistency and the frame above hold, and the live `DirtyCell` count never increases. Movements never decrease. They grow by the number of scheduled cleaners activated minus the number of `DirtyCell`s cleaned. |
| `Activation.ShuffleActivatesEveryCleaner` | visualize.py:101 | When the order is a permutation of the schedule, the pass activates every scheduled cleaner. |
| `CleanerModel.Trunc` | visualize.py:70 | Python's `int()` on a number. Its contract is carried by `TruncTowardZero`. |
| `CleanerModel.TruncTowardZero` | visualize.py:70 | `int(x)` truncates toward zero: for `x >= 0` it is the floor of `x`, and for `x < 0` it is the ceiling. |
| `CleanerModel.DirtyTarget` | visualize.py:70 | `int(M*N*pCells)`. `DirtyTargetNonNegative` states that it is non-negative for `pCells >= 0`. |
| `CleanerModel.DirtyTargetNonNegative` | visualize.py:70 | For `pCells >= 0` the dirty count `int(M*N*pCells)` is not negative. |
| `CleanerModel.DirtyTargetNegativeIff` | visualize.py:70 | The dirty count `int(M*N*pCells)` is negative iff `M*N*pCells <= -1`, so a `pCells` just below zero gives a count of 0. |
| `CleanerModel.Place` | visualize.py:84-85 | `schedule.add` followed by `place_agent`, used for both entity kinds (also visualize.py:90-91). Its contract is carried by `PlaceConsistent`. |
| `CleanerModel.Blank` | visualize.py:58-71 | The freshly constructed model before any entity is added: the settings, the count `int(M*N*pCells)`, `running` as `count > 0`, `pCleanCells = 1 - pCells`, an empty grid and schedule. Its contract is carried by `Init` and `Initialised`. |
| `CleanerModel.PlaceConsistent` | visualize.py:84-85 | `schedule.add` plus `place_agent` of a new entity on an in-bounds cell keeps grid and schedule consistent. |
| `CleanerModel.EmptyIffUnplaced` | visualize.py:80 | During seeding, `is_cell_empty` holds exactly for the cells where no `DirtyCell` has been placed yet. |
| `CleanerModel.DrawEmptyCell` | visualize.py:77-82 | The retry loop draws until a draw lands on an empty cell. The cell it finds is the next distinct draw, in bounds and empty. When the draws run out first, no distinct draw is left. |
| `CleanerModel.SeedDirtyCells` | visualize.py:74-85 | Seeding skips draws that land on occupied cells, so `DirtyCell` i stands on the i-th distinct draw and ids run 0..d-1 in schedule order. It fails only when the draws hold fewer than d distinct cells. |
| `CleanerModel.PlaceCleaners` | visualize.py:88-91 | Cleaner i gets id `numDirtyCells + i`, using the counter even when it is negative. Cleaners follow the `DirtyCell`s in the schedule and all stand on (1, 1). The `DirtyCell`s do not move. |
| `CleanerModel.Init` | visualize.py:57-91 | Construction fails only when the draws hold fewer distinct cells than the clamped count. Otherwise it is `Initialised`. `numDirtyCells` is `d = int(M*N*pCells)`, `running` holds iff `d > 0`, and `pCleanCells = 1 - pCells`. Grid and schedule are consistent. `DirtyCell` i (i below `d` clamped at 0) stands on the i-th distinct draw, so no two share a cell. Cleaners stand on (1,1). Ids run 0..d-1, then d..d+numAgents-1 with the unclamped `d`. For `pCells >= 0` the counter equals the live `DirtyCell` count and is at most M*N. |
| `CleanerModel.Step` | visualize.py:93-101 | `CleanerModel.step` with the shuffle and the neighbour draws as inputs. The result is consistent; the lemmas below state the rest. |
| `CleanerModel.StepConsistent` | visualize.py:93-101 | A step keeps grid/schedule consistency and keeps `DirtyCell`s apart. It adds no entity, removes no cleaner and moves no `DirtyCell`. |
| `CleanerModel.StepMetrics` | visualize.py:94-100 | `running` and `pCleanCells` are computed from the count before this step's recount. The collected row pairs that `pCleanCells` with the movement count from before the activations. |
| `CleanerModel.StepRecount` | visualize.py:98-101 | After a step, `numDirtyCells` equals the live `DirtyCell` count, because the recount precedes the activations, which decrement once per removal. That count never grows. |
| `CleanerModel.StepMovements` | visualize.py:101 | In a step, `totalAgentMovements` never falls. It grows by the number of cleaners minus the number of `DirtyCell`s cleaned, which is the number of cleaners that moved. |
| `CleanerModel.TrackedPreserved` | visualize.py:94-101 | From a state whose counter matches the live count and is at most M*N, a step leads to such a state again, and `pCleanCells` lies in [0, 1]. |
| `CleanerModel.StoppedIsTerminal` | visualize.py:95 | From a tracked state (Init with `pCells >= 0`, or any state after a step), once a step reports `running == false`, the following step reports it too. |
| `CleanerModel.CleanFractionMonotone` | visualize.py:94 | From a tracked state (Init with `pCells >= 0`, or any state after a step), `pCleanCells` never decreases from one step to the next. |
| `CleanerModel.NoDirtStepTracked` | visualize.py:94-101 | From any consistent state with no live `DirtyCell`, whatever its counter, one step leads to a tracked state. This covers Init with a negative `pCells`. |
| `CleanerModel.NegativeCountFalls` | visualize.py:94 | From a consistent state with no live `DirtyCell` and a negative counter, the first step reports `pCleanCells` above 1 and the second reports exactly 1. |
| `CleanerModel.LastStepStillMoves` | visualize.py:95-101 | A step that starts with no `DirtyCell` left reports `running == false`. Every cleaner still moves once during that step. |

## Left out

- Visualisation and server (visualize.py:103-130): `agent_portrayal`, `CanvasGrid`, `ModularServer` and `launch`. `agent_portrayal` and `CanvasGrid` only read the model. The server builds `CleanerModel` from its parameters and calls `step`; construction and `step` are modelled.
- `DataCollector` internals (visualize.py:66): collection is modelled as appending a (movements, `pCleanCells`) row. Mesa's own bookkeeping and the plotting imports (visualize.py:5-7) are omitted.
- Mesa's `MultiGrid`, `RandomActivation` and random generator are library code outside this model. They are replaced by:
  - the explicit grid map;
  - a supplied permutation for the activation order;
  - supplied draws.
  The uniformity of those draws is not modelled.
- The neighbourhood listing order is not modelled: Mesa's order differs between versions, and the index oracle makes it immaterial.
- Grids smaller than 3 by 3 are not modelled. Every member over the model state requires M, N >= 3 (through `Consistent` or `ValidDims`): only then are the eight wrapped neighbours distinct and different from the centre, and cell (1, 1) in bounds.
- Floating point is not modelled. `M*N*pCells` and `pCleanCells` are exact reals, so the float rounding of the product at integer boundaries is left out.
- `timeSteps` (visualize.py:65) is stored but never read. `RandomActivation`'s `steps`/`time` counters are left out too.
- `CleanerModel.Init`: does not model the non-termination of the seeding loop. It requires `int(M*N*pCells) <= M*N` because the loop spins forever otherwise. It returns `None` when the supplied draws run out before every `DirtyCell` is placed; the program would keep drawing.
- `numAgents` is a natural number. A negative value in the program gives an empty `range` and so behaves like 0.
- Mesa raises exceptions on removing an absent entity or adding a duplicate id. These paths are unreachable from `__init__` and `step` under the consistency invariant and are not modelled as error results.
- `CleanerModel.StoppedIsTerminal`: the claim that `running` stays false is proved for two successive steps and applies step by step through `TrackedPreserved`. No multi-step run function is defined.

=== FILE: activation.dfy ===
/** One pass of `RandomActivation.step`: every entity of a shuffled snapshot of the schedule is
    activated once, in the snapshot's order; an entity removed earlier in the same pass is
    skipped. The shuffle and the neighbour draws are oracle inputs. */
module Activation {
  import opened Space
  import opened State
  import opened Agents

  /** One entity's `step`: nothing for a `DirtyCell`, `CleanerAgent.step` for a cleaner. */
  function Activate(s: Sim, a: Agent, choice: NeighbourIndex): (r: Sim)
    requires Consistent(s) && a in s.schedule
    ensures Consistent(r)
  {
    match a.kind
    case DirtyCell => s
    case CleanerAgent =>
      CleanerStepConsistent(s, a, choice);
      CleanerStep(s, a, choice)
  }

  /** How many entities of `order` are cleaners that `sched` holds. */
  function CountActiveCleaners(order: seq<Agent>, sched: seq<Agent>): nat {
    if order == [] then 0
    else
      var here := if order[0].kind == CleanerAgent && order[0] in sched then 1 else 0;
      here + CountActiveCleaners(order[1..], sched)
  }

  /** The relation one activation, or one whole pass, keeps between the state before and after:
      nothing joins the schedule, no cleaner leaves it, no `DirtyCell` moves, and the dirty
      counter moves in step with the number of live `DirtyCell`s. */
  ghost predicate PassFrame(s: Sim, r: Sim) {
    && SameSettings(s, r)
    && (forall b | b in r.schedule :: b in s.schedule)
    && (forall b | b in s.schedule && b.kind == CleanerAgent :: b in r.schedule)
    && (forall b | b in r.pos && b.kind == DirtyCell :: b in s.pos && r.pos[b] == s.pos[b])
    && CountDirty(r.schedule) <= CountDirty(s.schedule)
    && r.numDirtyCells - s.numDirtyCells == CountDirty(r.schedule) - CountDirty(s.schedule)
    && r.totalAgentMovements >= s.totalAgentMovements
  }

  /** `RandomActivation.step` for the activation order `order`, with `choices[i]` the neighbour
      index drawn if `order[i]` turns out to move. */
  function ActivateAll(s: Sim, order: seq<Agent>, choices: seq<NeighbourIndex>): (r: Sim)
    requires Consistent(s)
    requires |choices| == |order|
    ensures Consistent(r)
    decreases |order|
  {
    if order == [] then s
    else if order[0] in s.schedule then
      ActivateAll(Activate(s, order[0], choices[0]), order[1..], choices[1..])
    else
      ActivateAll(s, order[1..], choices[1..])
  }

  /** One activation: the frame holds, dirty cells stay apart, and a cleaner either cleans
      one `DirtyCell` or moves once, so moves plus cleanings count the cleaner exactly once.
      A `DirtyCell`'s activation changes nothing, and no entity but the activated one moves. */
  lemma ActivateEffect(s: Sim, a: Agent, choice: NeighbourIndex)
    requires Consistent(s) && a in s.schedule
    ensures PassFrame(s, Activate(s, a, choice))
    ensures SeparateDirt(s) ==> SeparateDirt(Activate(s, a, choice))
    ensures Activate(s, a, choice).totalAgentMovements - s.totalAgentMovements
      + (CountDirty(s.schedule) - CountDirty(Activate(s, a, choice).schedule))
      == (if a.kind == CleanerAgent then 1 else 0)
    ensures a.kind == DirtyCell ==> Activate(s, a, choice) == s
    ensures forall b | b in Activate(s, a, choice).pos && b != a ::
      b in s.pos && Activate(s, a, choice).pos[b] == s.pos[b]
  {
    if a.kind == CleanerAgent {
      var r := Activate(s, a, choice);
      if DirtyAt(s, s.pos[a]) {
        CleanerStepCleans(s, a, choice);
      } else {
        CleanerStepMoves(s, a, choice);
        assert forall b | b in r.pos && b.kind == DirtyCell :: b != a;
      }
    }
  }

  lemma {:induction false} CountActiveCleanersCongruent(order: seq<Agent>, x: seq<Agent>, y: seq<Agent>)
    requires forall b: Agent | b.kind == CleanerAgent :: b in x <==> b in y
    ensures CountActiveCleaners(order, x) == CountActiveCleaners(order, y)
    decreases |order|
  {
    if order != [] {
      CountActiveCleanersCongruent(order[1..], x, y);
    }
  }

  /** Across one pass: the frame holds, dirty cells stay apart, and the movement counter grows by
      exactly the number of scheduled cleaners activated minus the number of `DirtyCell`s
      cleaned, that is, by the number of cleaners that moved rather than cleaned. */
  lemma {:induction false} ActivateAllEffect(s: Sim, order: seq<Agent>, choices: seq<NeighbourIndex>)
    requires Consistent(s)
    requires |choices| == |order|
    ensures Consistent(ActivateAll(s, order, choices))
    ensures PassFrame(s, ActivateAll(s, order, choices))
    ensures SeparateDirt(s) ==> SeparateDirt(ActivateAll(s, order, choices))
    ensures ActivateAll(s, order, choices).totalAgentMovements - s.totalAgentMovements
      + (CountDirty(s.schedule) - CountDirty(ActivateAll(s, order, choices).schedule))
      == CountActiveCleaners(order, s.schedule)
    decreases |order|
  {
    if order != [] {
      var a := order[0];
      if a in s.schedule {
        var s1 := Activate(s, a, choices[0]);
        ActivateEffect(s, a, choices[0]);
        ActivateAllEffect(s1, order[1..], choices[1..]);
        CountActiveCleanersCongruent(order[1..], s.schedule, s1.schedule);
      } else {
        ActivateAllEffect(s, order[1..], choices[1..]);
      }
    }
  }

  /** When `order` is a shuffle of the schedule, every scheduled cleaner is activated. */
  lemma {:induction false} ShuffleActivatesEveryCleaner(order: seq<Agent>, sched: seq<Agent>)
    requires multiset(order) == multiset(sched)
    ensures CountActiveCleaners(order, sched) == CountKind(sched, CleanerAgent)
  {
    forall b | b in order ensures b in sched {
      assert b in multiset(order);
    }
    ActiveCleanersOfMembers(order, sched);
    CountKindPermutation(order, sched, CleanerAgent);
  }

  lemma {:induction false} ActiveCleanersOfMembers(order: seq<Agent>, sched: seq<Agent>)
    requires forall b | b in order :: b in sched
    ensures CountActiveCleaners(order, sched) == CountKind(order, CleanerAgent)
    decreases |order|
  {
    if order != [] {
      assert order[0] in order;
      ActiveCleanersOfMembers(order[1..], sched);
    }
  }
}

=== FILE: agents.dfy ===
/** The two entity behaviours: `DirtyCell.step` does nothing; `CleanerAgent.step` cleans the
    first dirty cell sharing its cell, or otherwise moves to a neighbour chosen by an index oracle
    and counts the movement. */
module Agents {
  import opened Seqs
  import opened Space
  import opened State

  /** Some occupant of cell `p` is a `DirtyCell`. */
  ghost predicate DirtyAt(s: Sim, p: Pos) {
    exists b :: b in Cell(s.grid, p) && b.kind == DirtyCell
  }

  /** Everything but the grid, the positions, the schedule and the two counters is untouched. */
  ghost predicate SameSettings(s: Sim, r: Sim) {
    && r.width == s.width && r.height == s.height
    && r.numAgents == s.numAgents && r.pCells == s.pCells
    && r.pCleanCells == s.pCleanCells && r.running == s.running
    && r.history == s.history
  }

  /** The effect of `clean_cell(d)`: `d` leaves both the grid and the schedule, every other
      entity keeps its place, and the dirty counter drops by one. */
  ghost predicate Cleaned(s: Sim, r: Sim, d: Agent)
    requires d in s.pos
  {
    && SameSettings(s, r)
    && (forall b :: b in r.schedule <==> b in s.schedule && b != d)
    && r.pos == s.pos - {d}
    && (forall p :: d !in Cell(r.grid, p))
    && (forall p | p != s.pos[d] :: Cell(r.grid, p) == Cell(s.grid, p))
    && CountDirty(r.schedule) == CountDirty(s.schedule) - (if d.kind == DirtyCell then 1 else 0)
    && r.numDirtyCells == s.numDirtyCells - 1
    && r.totalAgentMovements == s.totalAgentMovements
  }

  /** The effect of `move()` plus the movement count: `a` steps to a Moore neighbour on the
      torus, nobody else moves, nothing is removed, and the movement counter grows by one. */
  ghost predicate Moved(s: Sim, r: Sim, a: Agent)
    requires a in s.pos && a in r.pos
  {
    && SameSettings(s, r)
    && r.schedule == s.schedule
    && r.pos.Keys == s.pos.Keys
    && MooreNeighbour(s.pos[a], r.pos[a], s.width, s.height)
    && (forall b | b in s.pos && b != a :: r.pos[b] == s.pos[b])
    && r.numDirtyCells == s.numDirtyCells
    && r.totalAgentMovements == s.totalAgentMovements + 1
  }

  /** `is_dirty(cellmates)`: the first `DirtyCell` among the cellmates, or `None` when
      there is none. */
  function IsDirty(cellmates: seq<Agent>): (r: Option<Agent>)
    ensures r.None? <==> forall b | b in cellmates :: b.kind != DirtyCell
    ensures r.Some? ==> r.value.kind == DirtyCell
    ensures r.Some? ==> exists i | 0 <= i < |cellmates| ::
      cellmates[i] == r.value && forall j | 0 <= j < i :: cellmates[j].kind != DirtyCell
    decreases |cellmates|
  {
    if cellmates == [] then None
    else if cellmates[0].kind == DirtyCell then Some(cellmates[0])
    else
      var r := IsDirty(cellmates[1..]);
      assert cellmates == [cellmates[0]] + cellmates[1..];
      assert r.Some? ==> exists i | 0 <= i < |cellmates| ::
        cellmates[i] == r.value && forall j | 0 <= j < i :: cellmates[j].kind != DirtyCell by {
        if r.Some? {
          var i :| 0 <= i < |cellmates[1..]| && cellmates[1..][i] == r.value
            && forall j | 0 <= j < i :: cellmates[1..][j].kind != DirtyCell;
          assert cellmates[i + 1] == r.value;
          forall j | 0 <= j < i + 1 ensures cellmates[j].kind != DirtyCell {
            if j > 0 {
              assert cellmates[j] == cellmates[1..][j - 1];
            }
          }
        }
      }
      r
  }

  /** `clean_cell(d)`: removes `d` from the grid cell it stands in and from the schedule,
      and decrements `numDirtyCells`. */
  function CleanCell(s: Sim, d: Agent): Sim
    requires d in s.pos
  {
    var here := s.pos[d];
    s.(grid := RemoveAgent(s.grid, here, d),
       schedule := Remove(s.schedule, d),
       pos := s.pos - {d},
       numDirtyCells := s.numDirtyCells - 1)
  }

  /** Cleaning a scheduled entity keeps grid and schedule consistent. */
  lemma CleanCellConsistent(s: Sim, d: Agent)
    requires Consistent(s) && d in s.schedule
    ensures Consistent(CleanCell(s, d))
  {
    var r := CleanCell(s, d);
    var here := s.pos[d];
    assert here in s.grid && NoDup(s.grid[here]);
    RemoveNoDup(Cell(s.grid, here), d);
    RemoveNoDup(s.schedule, d);
    assert Cell(r.grid, here) == Remove(Cell(s.grid, here), d);
    CleanKeepsOccupantsPlaced(s, d);
    CleanKeepsPlacedInOwnCell(s, d);
    CleanKeepsCellsNoDup(s, d);
  }

  lemma CleanKeepsOccupantsPlaced(s: Sim, d: Agent)
    requires Consistent(s) && d in s.pos
    requires forall b :: b in Cell(CleanCell(s, d).grid, s.pos[d]) <==> b in Cell(s.grid, s.pos[d]) && b != d
    ensures OccupantsPlaced(CleanCell(s, d))
  {
    var r := CleanCell(s, d);
    forall p, b | b in Cell(r.grid, p) ensures b in r.pos && r.pos[b] == p {
      if p != s.pos[d] {
        assert Cell(r.grid, p) == Cell(s.grid, p);
      }
    }
  }

  lemma CleanKeepsPlacedInOwnCell(s: Sim, d: Agent)
    requires Consistent(s) && d in s.pos
    requires forall b :: b in Cell(CleanCell(s, d).grid, s.pos[d]) <==> b in Cell(s.grid, s.pos[d]) && b != d
    ensures PlacedInOwnCell(CleanCell(s, d))
  {
    var r := CleanCell(s, d);
    forall b | b in r.pos ensures InBounds(r.pos[b], r.width, r.height) && b in Cell(r.grid, r.pos[b]) {
      assert b in Cell(s.grid, s.pos[b]);
    }
  }

  lemma CleanKeepsCellsNoDup(s: Sim, d: Agent)
    requires Consistent(s) && d in s.pos
    requires NoDup(Cell(CleanCell(s, d).grid, s.pos[d]))
    ensures CellsNoDup(CleanCell(s, d))
  {
    var r := CleanCell(s, d);
    forall p | p in r.grid ensures NoDup(r.grid[p]) {
      if p != s.pos[d] {
        assert r.grid[p] == s.grid[p];
      } else {
        assert r.grid[p] == Cell(r.grid, p);
      }
    }
  }

  /** Cleaning a scheduled entity has exactly the effect `Cleaned` describes. */
  lemma CleanCellEffect(s: Sim, d: Agent)
    requires Consistent(s) && d in s.schedule
    ensures Cleaned(s, CleanCell(s, d), d)
  {
    CleanCellSchedule(s, d);
    CleanCellGrid(s, d);
  }

  /** The schedule part of `clean_cell`: exactly `d` leaves, and the live count of its kind drops by one. */
  lemma CleanCellSchedule(s: Sim, d: Agent)
    requires d in s.pos && d in s.schedule && NoDup(s.schedule)
    ensures forall b :: b in CleanCell(s, d).schedule <==> b in s.schedule && b != d
    ensures CountDirty(CleanCell(s, d).schedule) == CountDirty(s.schedule) - (if d.kind == DirtyCell then 1 else 0)
  {
    RemoveNoDup(s.schedule, d);
    CountKindRemove(s.schedule, d, DirtyCell);
  }

  /** The grid part of `clean_cell`: `d` is on no cell afterwards, and only its own cell changes. */
  lemma CleanCellGrid(s: Sim, d: Agent)
    requires d in s.pos && OccupantsPlaced(s) && CellsNoDup(s) && d in Cell(s.grid, s.pos[d])
    ensures forall p :: d !in Cell(CleanCell(s, d).grid, p)
    ensures forall p | p != s.pos[d] :: Cell(CleanCell(s, d).grid, p) == Cell(s.grid, p)
  {
    var r := CleanCell(s, d);
    var here := s.pos[d];
    assert here in s.grid;
    RemoveNoDup(Cell(s.grid, here), d);
    assert Cell(r.grid, here) == Remove(Cell(s.grid, here), d);
  }

  /** `move()` for the cleaner `a`, landing on `to`. */
  function Move(s: Sim, a: Agent, to: Pos): (r: Sim)
    requires a in s.pos && to != s.pos[a]
    ensures a in r.pos && r.pos[a] == to
    ensures a in Cell(r.grid, to)
    ensures r.pos.Keys == s.pos.Keys
    ensures forall b | b in s.pos && b != a :: r.pos[b] == s.pos[b]
  {
    s.(grid := MoveAgent(s.grid, s.pos[a], to, a), pos := s.pos[a := to])
  }

  /** Moving a placed entity to a different in-bounds cell keeps grid and schedule consistent. */
  lemma MoveConsistent(s: Sim, a: Agent, to: Pos)
    requires Consistent(s) && a in s.pos
    requires MooreNeighbour(s.pos[a], to, s.width, s.height)
    ensures Consistent(Move(s, a, to))
  {
    var r := Move(s, a, to);
    var from := s.pos[a];
    var dst := Cell(s.grid, to);
    assert from in s.grid && NoDup(s.grid[from]);
    RemoveNoDup(Cell(s.grid, from), a);
    assert Cell(r.grid, from) == Remove(Cell(s.grid, from), a);
    assert Cell(r.grid, to) == dst + [a];
    assert a !in dst;
    assert NoDup(dst + [a]) by {
      assert NoDup(dst) by {
        if to !in s.grid {
          assert dst == [];
        }
      }
      forall i, j | 0 <= i < j < |dst + [a]| ensures (dst + [a])[i] != (dst + [a])[j] {
        if j == |dst| {
          assert (dst + [a])[i] == dst[i];
        } else {
          assert (dst + [a])[i] == dst[i] && (dst + [a])[j] == dst[j];
        }
      }
    }
    MoveKeepsOccupantsPlaced(s, a, to);
    MoveKeepsPlacedInOwnCell(s, a, to);
    MoveKeepsCellsNoDup(s, a, to);
  }

  lemma MoveKeepsOccupantsPlaced(s: Sim, a: Agent, to: Pos)
    requires Consistent(s) && a in s.pos && to != s.pos[a]
    requires forall b :: b in Cell(Move(s, a, to).grid, s.pos[a]) <==> b in Cell(s.grid, s.pos[a]) && b != a
    ensures OccupantsPlaced(Move(s, a, to))
  {
    var r := Move(s, a, to);
    forall p, b | b in Cell(r.grid, p) ensures b in r.pos && r.pos[b] == p {
      if p == to {
        assert b == a || b in Cell(s.grid, to);
      } else if p != s.pos[a] {
        assert b in Cell(s.grid, p);
      }
    }
  }

  lemma MoveKeepsPlacedInOwnCell(s: Sim, a: Agent, to: Pos)
    requires Consistent(s) && a in s.pos && to != s.pos[a] && InBounds(to, s.width, s.height)
    requires forall b :: b in Cell(Move(s, a, to).grid, s.pos[a]) <==> b in Cell(s.grid, s.pos[a]) && b != a
    ensures PlacedInOwnCell(Move(s, a, to))
  {
    var r := Move(s, a, to);
    forall b | b in r.pos ensures InBounds(r.pos[b], r.width, r.height) && b in Cell(r.grid, r.pos[b]) {
      if b != a {
        assert b in Cell(s.grid, s.pos[b]);
      }
    }
  }

  lemma MoveKeepsCellsNoDup(s: Sim, a: Agent, to: Pos)
    requires Consistent(s) && a in s.pos && to != s.pos[a]
    requires NoDup(Cell(Move(s, a, to).grid, s.pos[a]))
    requires NoDup(Cell(Move(s, a, to).grid, to))
    ensures CellsNoDup(Move(s, a, to))
  {
    var r := Move(s, a, to);
    forall p | p in r.grid ensures NoDup(r.grid[p]) {
      if p != s.pos[a] && p != to {
        assert r.grid[p] == s.grid[p];
      } else {
        assert r.grid[p] == Cell(r.grid, p);
      }
    }
  }

  /** `CleanerAgent.step`, with `choice` the index `random.choice` draws from the neighbourhood:
      the first `DirtyCell` among the cellmates is cleaned if there is one; otherwise the
      cleaner moves and the movement counter grows by one. */
  function CleanerStep(s: Sim, a: Agent, choice: NeighbourIndex): Sim
    requires Consistent(s) && a in s.schedule
  {
    var here := s.pos[a];
    match IsDirty(Cell(s.grid, here))
    case Some(d) =>
      assert d in s.pos;
      CleanCell(s, d)
    case None =>
      NeighbourhoodIsMoore(here, s.width, s.height);
      var moved := Move(s, a, Neighbourhood(here, s.width, s.height)[choice]);
      moved.(totalAgentMovements := moved.totalAgentMovements + 1)
  }

  /** A cleaner's step keeps grid and schedule consistent. */
  lemma CleanerStepConsistent(s: Sim, a: Agent, choice: NeighbourIndex)
    requires Consistent(s) && a in s.schedule
    ensures Consistent(CleanerStep(s, a, choice))
  {
    var here := s.pos[a];
    match IsDirty(Cell(s.grid, here))
    case Some(d) =>
      assert d in s.pos;
      CleanCellConsistent(s, d);
    case None =>
      NeighbourhoodIsMoore(here, s.width, s.height);
      MoveConsistent(s, a, Neighbourhood(here, s.width, s.height)[choice]);
  }

  /** When the cleaner's cell holds a `DirtyCell`, the step removes the first one from grid and
      schedule, decrements the counter, and leaves the cleaner where it was. */
  lemma CleanerStepCleans(s: Sim, a: Agent, choice: NeighbourIndex)
    requires Consistent(s) && a in s.schedule && a.kind == CleanerAgent
    requires DirtyAt(s, s.pos[a])
    ensures IsDirty(Cell(s.grid, s.pos[a])).Some?
    ensures IsDirty(Cell(s.grid, s.pos[a])).value in Cell(s.grid, s.pos[a])
    ensures Cleaned(s, CleanerStep(s, a, choice), IsDirty(Cell(s.grid, s.pos[a])).value)
    ensures a in CleanerStep(s, a, choice).pos && CleanerStep(s, a, choice).pos[a] == s.pos[a]
  {
    var d := IsDirty(Cell(s.grid, s.pos[a])).value;
    assert d in s.pos;
    CleanCellEffect(s, d);
  }

  /** When the cleaner's cell holds no `DirtyCell`, the step moves it to a Moore neighbour on the
      torus, bumps the movement counter by one, and removes nothing. */
  lemma CleanerStepMoves(s: Sim, a: Agent, choice: NeighbourIndex)
    requires Consistent(s) && a in s.schedule
    requires !DirtyAt(s, s.pos[a])
    ensures a in CleanerStep(s, a, choice).pos
    ensures Moved(s, CleanerStep(s, a, choice), a)
  {
    NeighbourhoodIsMoore(s.pos[a], s.width, s.height);
  }
}

=== FILE: model.dfy ===
/** `CleanerModel`: construction (dirty-count computation, seeding of `DirtyCell`s on empty
    cells, cleaners stacked on (1, 1)) and `step` (metrics from the previous count, live recount,
    data collection, then one activation pass). */
module CleanerModel {
  import opened Seqs
  import opened Space
  import opened State
  import opened Agents
  import opened Activation

  /** Python's `int()` on a number: truncation toward zero. For a non-negative argument it is
      the floor; for a negative one, the ceiling. */
  function Trunc(x: real): int {
    if x >= 0.0 then x.Floor else -((-x).Floor)
  }

  /** `Trunc` rounds toward zero: for a non-negative argument it is the floor, for a negative
      one the ceiling. */
  lemma TruncTowardZero(x: real)
    ensures x >= 0.0 ==> 0 <= Trunc(x) && Trunc(x) as real <= x < Trunc(x) as real + 1.0
    ensures x < 0.0 ==> Trunc(x) <= 0 && Trunc(x) as real - 1.0 < x <= Trunc(x) as real
  {
  }

  /** `int(M * N * pCells)`, the number of `DirtyCell`s construction asks for. */
  function DirtyTarget(width: int, height: int, pCells: real): int {
    Trunc((width * height) as real * pCells)
  }

  /** A non-negative `pCells` asks for a non-negative number of `DirtyCell`s. */
  lemma DirtyTargetNonNegative(width: int, height: int, pCells: real)
    requires width >= 0 && height >= 0
    ensures pCells >= 0.0 ==> DirtyTarget(width, height, pCells) >= 0
  {
    var c := (width * height) as real;
    assert c >= 0.0 by {
      assert width * height >= 0;
    }
    assert pCells >= 0.0 ==> c * pCells >= 0.0;
    TruncTowardZero(c * pCells);
  }

  /** The count is negative exactly when `M * N * pCells <= -1`; a `pCells` just below zero
      truncates to a count of 0. */
  lemma DirtyTargetNegativeIff(width: int, height: int, pCells: real)
    ensures DirtyTarget(width, height, pCells) < 0 <==> (width * height) as real * pCells <= -1.0
  {
    var x := (width * height) as real * pCells;
    TruncTowardZero(x);
  }

  /** `range(d)` is empty for a negative `d`. */
  function Clamp(d: int): nat {
    if d < 0 then 0 else d
  }

  /** `schedule.add(a)` followed by `grid.place_agent(a, p)`. */
  function Place(s: Sim, a: Agent, p: Pos): Sim {
    s.(schedule := s.schedule + [a], grid := PlaceAgent(s.grid, p, a), pos := s.pos[a := p])
  }

  /** Adding a new entity on an in-bounds cell keeps grid and schedule consistent. */
  lemma PlaceConsistent(s: Sim, a: Agent, p: Pos)
    requires Consistent(s) && a !in s.schedule && InBounds(p, s.width, s.height)
    ensures Consistent(Place(s, a, p))
  {
    var r := Place(s, a, p);
    assert a !in Cell(s.grid, p);
    assert NoDup(r.schedule) by {
      var t := s.schedule + [a];
      forall i, j | 0 <= i < j < |t| ensures t[i] != t[j] {
        if j == |s.schedule| {
          assert t[i] == s.schedule[i];
        } else {
          assert t[i] == s.schedule[i] && t[j] == s.schedule[j];
        }
      }
    }
    assert NoDup(Cell(r.grid, p)) by {
      var c := Cell(s.grid, p);
      assert NoDup(c) by {
        if p !in s.grid {
          assert c == [];
        }
      }
      forall i, j | 0 <= i < j < |c + [a]| ensures (c + [a])[i] != (c + [a])[j] {
        if j == |c| {
          assert (c + [a])[i] == c[i];
        } else {
          assert (c + [a])[i] == c[i] && (c + [a])[j] == c[j];
        }
      }
    }
    forall q, b | b in Cell(r.grid, q) ensures b in r.pos && r.pos[b] == q {
      if q == p {
        assert b == a || b in Cell(s.grid, p);
      } else {
        assert b in Cell(s.grid, q);
      }
    }
    forall b | b in r.pos ensures InBounds(r.pos[b], r.width, r.height) && b in Cell(r.grid, r.pos[b]) {
      if b != a {
        assert b in Cell(s.grid, s.pos[b]);
      }
    }
  }

  /** During seeding, the scheduled entities are `DirtyCell`s 0, 1, ... standing on `placed`. */
  ghost predicate DirtyLayout(s: Sim, placed: seq<Pos>) {
    && |s.schedule| == |placed|
    && forall t | 0 <= t < |placed| ::
         s.schedule[t] == Agent(t, DirtyCell) && s.schedule[t] in s.pos && s.pos[s.schedule[t]] == placed[t]
  }

  /** One seeding placement: the next `DirtyCell`, numbered after those placed, is new to the
      schedule; placing it on an in-bounds cell keeps the state consistent, extends the layout
      by that cell, and changes nothing but grid, positions and schedule. */
  lemma PlaceNextDirt(s: Sim, placed: seq<Pos>, p: Pos)
    requires Consistent(s) && DirtyLayout(s, placed) && InBounds(p, s.width, s.height)
    ensures Consistent(Place(s, Agent(|placed|, DirtyCell), p))
    ensures DirtyLayout(Place(s, Agent(|placed|, DirtyCell), p), placed + [p])
    ensures Place(s, Agent(|placed|, DirtyCell), p).(grid := map[], pos := map[], schedule := [])
         == s.(grid := map[], pos := map[], schedule := [])
  {
    var cell := Agent(|placed|, DirtyCell);
    assert cell !in s.schedule;
    PlaceConsistent(s, cell, p);
    var r := Place(s, cell, p);
    forall t | 0 <= t < |placed + [p]|
      ensures r.schedule[t] == Agent(t, DirtyCell) && r.schedule[t] in r.pos && r.pos[r.schedule[t]] == (placed + [p])[t]
    {
      if t < |placed| {
        assert r.schedule[t] == s.schedule[t] && (placed + [p])[t] == placed[t];
      }
    }
  }

  /** During seeding, a cell is empty exactly when no `DirtyCell` has been put there. */
  lemma EmptyIffUnplaced(s: Sim, placed: seq<Pos>, p: Pos)
    requires Consistent(s) && DirtyLayout(s, placed)
    ensures IsCellEmpty(s.grid, p) <==> p !in placed
  {
    if p in placed {
      var t :| 0 <= t < |placed| && placed[t] == p;
      assert s.schedule[t] in Cell(s.grid, p);
    }
    if !IsCellEmpty(s.grid, p) {
      var a := Cell(s.grid, p)[0];
      assert a in Cell(s.grid, p);
      assert a in s.schedule;
      var t :| 0 <= t < |s.schedule| && s.schedule[t] == a;
      assert placed[t] == p;
    }
  }

  /** One draw of the retry loop: the positions placed so far are the distinct draws so far. */
  lemma DrawStep(cands: seq<Pos>, k: nat)
    requires k < |cands|
    ensures Distinct(cands[..k + 1]) ==
      if cands[k] in Distinct(cands[..k]) then Distinct(cands[..k]) else Distinct(cands[..k]) + [cands[k]]
  {
    assert cands[..k + 1][..k] == cands[..k];
  }

  /** The state `__init__` builds before any entity exists. */
  function Blank(width: int, height: int, numAgents: nat, pCells: real): Sim {
    var d := DirtyTarget(width, height, pCells);
    Sim(width, height, numAgents, pCells, map[], map[], [], d, 0, 1.0 - pCells, d > 0, [])
  }

  /** Everything but grid, positions and schedule is as `Blank` set it. */
  ghost predicate FromBlank(s: Sim, blank: Sim) {
    s.(grid := map[], pos := map[], schedule := []) == blank
  }

  /** The seeding loop of `__init__`. `candidates` are the successive `(randrange(M), randrange(N))`
      draws; each `DirtyCell` goes to the next drawn cell that is empty and a draw on an occupied
      cell is discarded, so `DirtyCell` i lands on the i-th distinct draw. `None` means the draws
      ran out before all `n` were placed. */
  method SeedDirtyCells(blank: Sim, n: nat, candidates: seq<Pos>) returns (r: Option<Sim>)
    requires Consistent(blank) && blank.schedule == [] && blank.grid == map[] && blank.pos == map[]
    requires forall c | c in candidates :: InBounds(c, blank.width, blank.height)
    ensures r.None? <==> |Distinct(candidates)| < n
    ensures r.Some? ==> && Consistent(r.value) && FromBlank(r.value, blank)
                        && n <= |Distinct(candidates)|
                        && DirtyLayout(r.value, Distinct(candidates)[..n])
  {
    var s := blank;
    var k := 0;
    var i := 0;
    while i < n
      invariant 0 <= i <= n && 0 <= k <= |candidates|
      invariant Consistent(s) && FromBlank(s, blank)
      invariant |Distinct(candidates[..k])| == i
      invariant DirtyLayout(s, Distinct(candidates[..k]))
    {
      assert s.width == blank.width && s.height == blank.height;
      var found, p, next := DrawEmptyCell(s, candidates, k);
      if !found {
        return None;
      }
      PlaceNextDirt(s, Distinct(candidates[..k]), p);
      k := next;
      s := Place(s, Agent(i, DirtyCell), p);
      i := i + 1;
    }
    DistinctPrefix(candidates, k);
    r := Some(s);
  }

  /** The retry loop that picks one `DirtyCell`'s cell: draws from position `k0` on are taken
      until one lands on an empty cell, and draws on occupied cells are discarded. The cell
      found is the next distinct draw; `found` is false when the draws run out first, and then
      there is no further distinct draw. */
  method DrawEmptyCell(s: Sim, candidates: seq<Pos>, k0: nat) returns (found: bool, p: Pos, k: nat)
    requires Consistent(s) && k0 <= |candidates|
    requires DirtyLayout(s, Distinct(candidates[..k0]))
    requires forall c | c in candidates :: InBounds(c, s.width, s.height)
    ensures k0 <= k <= |candidates|
    ensures !found ==> Distinct(candidates) == Distinct(candidates[..k0])
    ensures found ==> && Distinct(candidates[..k]) == Distinct(candidates[..k0]) + [p]
                      && InBounds(p, s.width, s.height) && IsCellEmpty(s.grid, p)
  {
    ghost var placed := Distinct(candidates[..k0]);
    k := k0;
    p := Pos(0, 0);
    found := false;
    while !found
      invariant k0 <= k <= |candidates|
      invariant !found ==> Distinct(candidates[..k]) == placed
      invariant found ==> && Distinct(candidates[..k]) == placed + [p]
                          && InBounds(p, s.width, s.height) && IsCellEmpty(s.grid, p)
      decreases |candidates| - k
    {
      if k == |candidates| {
        assert candidates[..k] == candidates;
        return;
      }
      p := candidates[k];
      DrawStep(candidates, k);
      EmptyIffUnplaced(s, placed, p);
      k := k + 1;
      if IsCellEmpty(s.grid, p) {
        found := true;
      }
    }
  }

  /** The ids `__init__` hands out: `DirtyCell` t is number t for t < n, and the cleaners that
      follow are numbered from `base` on. */
  ghost predicate InitialIds(sched: seq<Agent>, n: nat, base: int) {
    forall t | 0 <= t < |sched| ::
      sched[t] == if t < n then Agent(t, DirtyCell) else Agent(base + (t - n), CleanerAgent)
  }

  /** The cleaner loop of `__init__`: cleaner i gets id `numDirtyCells + i` (the counter, which
      may be negative, not the number seeded) and is added after the `DirtyCell`s, on cell
      (1, 1); the `DirtyCell`s stay where they are. */
  method PlaceCleaners(s0: Sim, numAgents: nat) returns (s: Sim)
    requires Consistent(s0)
    requires forall t | 0 <= t < |s0.schedule| :: s0.schedule[t] == Agent(t, DirtyCell)
    requires InBounds(Pos(1, 1), s0.width, s0.height)
    ensures Consistent(s) && FromBlank(s, s0.(grid := map[], pos := map[], schedule := []))
    ensures |s.schedule| == |s0.schedule| + numAgents
    ensures InitialIds(s.schedule, |s0.schedule|, s0.numDirtyCells)
    ensures forall a | a in s0.pos :: a in s.pos && s.pos[a] == s0.pos[a]
    ensures forall a | a in s.pos && a.kind == CleanerAgent :: s.pos[a] == Pos(1, 1)
  {
    var n := |s0.schedule|;
    s := s0;
    var j := 0;
    while j < numAgents
      invariant 0 <= j <= numAgents
      invariant Consistent(s) && FromBlank(s, s0.(grid := map[], pos := map[], schedule := []))
      invariant |s.schedule| == n + j
      invariant InitialIds(s.schedule, n, s0.numDirtyCells)
      invariant forall a | a in s0.pos :: a in s.pos && s.pos[a] == s0.pos[a]
      invariant forall a | a in s.pos && a.kind == CleanerAgent :: s.pos[a] == Pos(1, 1)
    {
      var agent := Agent(s0.numDirtyCells + j, CleanerAgent);
      assert agent !in s.schedule;
      PlaceConsistent(s, agent, Pos(1, 1));
      ghost var before := s.schedule;
      s := Place(s, agent, Pos(1, 1));
      assert s.schedule == before + [agent];
      assert forall t | 0 <= t < n + j :: s.schedule[t] == before[t];
      j := j + 1;
    }
  }

  /** What `CleanerModel.__init__` promises about the state it builds: the dirty count is
      `d = int(M * N * pCells)`, `running` says whether it is positive, and `pCleanCells` is
      `1 - pCells`. Grid and schedule are consistent. `DirtyCell` i (for i below `d` clamped at 0)
      stands on the i-th distinct seeding draw, so no two share a cell. Every cleaner stands on
      (1, 1), and ids run 0..d-1 for the `DirtyCell`s and d..d+numAgents-1 for the cleaners,
      with `d` the unclamped count. With a non-negative `pCells` the counter starts tracked. */
  ghost predicate Initialised(s: Sim, width: int, height: int, numAgents: nat, pCells: real,
                              candidates: seq<Pos>)
  {
    var d := DirtyTarget(width, height, pCells);
    && Consistent(s) && SeparateDirt(s)
    && s.width == width && s.height == height && s.numAgents == numAgents && s.pCells == pCells
    && s.numDirtyCells == d
    && s.running == (d > 0)
    && s.pCleanCells == 1.0 - pCells
    && s.totalAgentMovements == 0
    && s.history == []
    && CountDirty(s.schedule) == Clamp(d)
    && |s.schedule| == Clamp(d) + numAgents
    && InitialIds(s.schedule, Clamp(d), d)
    && Clamp(d) <= |Distinct(candidates)|
    && (forall t | 0 <= t < Clamp(d) ::
          Agent(t, DirtyCell) in s.pos && s.pos[Agent(t, DirtyCell)] == Distinct(candidates)[t])
    && (forall a | a in s.pos && a.kind == CleanerAgent :: s.pos[a] == Pos(1, 1))
    && (pCells >= 0.0 ==> s.numDirtyCells == CountDirty(s.schedule) <= width * height)
  }

  /** `CleanerModel.__init__`, with the seeding draws `candidates`. It fails (`None`) exactly
      when the draws hold fewer distinct cells than `DirtyCell`s to place; otherwise the state
      is `Initialised`. */
  method Init(width: int, height: int, numAgents: nat, pCells: real, candidates: seq<Pos>)
    returns (r: Option<Sim>)
    requires ValidDims(width, height)
    requires DirtyTarget(width, height, pCells) <= width * height
    requires forall c | c in candidates :: InBounds(c, width, height)
    ensures r.None? <==> |Distinct(candidates)| < Clamp(DirtyTarget(width, height, pCells))
    ensures r.Some? ==> Initialised(r.value, width, height, numAgents, pCells, candidates)
  {
    var n := Clamp(DirtyTarget(width, height, pCells));
    var blank := Blank(width, height, numAgents, pCells);
    var seeded := SeedDirtyCells(blank, n, candidates);
    if seeded.None? {
      return None;
    }
    var dirty := seeded.value;
    var s := PlaceCleaners(dirty, numAgents);
    InitialisedFrom(blank, dirty, s, candidates);
    r := Some(s);
  }

  /** The seeding loop followed by the cleaner loop, from the blank state, establishes
      `Initialised`. */
  lemma InitialisedFrom(blank: Sim, dirty: Sim, s: Sim, candidates: seq<Pos>)
    requires blank == Blank(blank.width, blank.height, blank.numAgents, blank.pCells)
    requires Consistent(dirty) && FromBlank(dirty, blank)
    requires Clamp(blank.numDirtyCells) <= |Distinct(candidates)|
    requires DirtyLayout(dirty, Distinct(candidates)[..Clamp(blank.numDirtyCells)])
    requires DirtyTarget(blank.width, blank.height, blank.pCells) <= blank.width * blank.height
    requires Consistent(s) && FromBlank(s, dirty.(grid := map[], pos := map[], schedule := []))
    requires |s.schedule| == |dirty.schedule| + blank.numAgents
    requires InitialIds(s.schedule, |dirty.schedule|, dirty.numDirtyCells)
    requires forall a | a in dirty.pos :: a in s.pos && s.pos[a] == dirty.pos[a]
    requires forall a | a in s.pos && a.kind == CleanerAgent :: s.pos[a] == Pos(1, 1)
    ensures Initialised(s, blank.width, blank.height, blank.numAgents, blank.pCells, candidates)
  {
    var d := blank.numDirtyCells;
    var n := Clamp(d);
    var placed := Distinct(candidates)[..n];
    assert dirty.numDirtyCells == d && |dirty.schedule| == n;
    assert s.numDirtyCells == d && s.width == blank.width && s.height == blank.height;
    InitialCounts(s.schedule, n);
    DirtyTargetNonNegative(blank.width, blank.height, blank.pCells);
    DistinctPrefixNoDup(candidates, n);
    SeededDirtStays(dirty, s, placed);
    InitialDirtApart(s, placed);
  }

  /** The first `n` distinct draws are themselves distinct. */
  lemma DistinctPrefixNoDup(cands: seq<Pos>, n: nat)
    requires n <= |Distinct(cands)|
    ensures NoDup(Distinct(cands)[..n])
  {
    DistinctSpec(cands);
    var placed := Distinct(cands)[..n];
    forall i, j | 0 <= i < j < n ensures placed[i] != placed[j] {
      assert placed[i] == Distinct(cands)[i] && placed[j] == Distinct(cands)[j];
    }
  }

  /** Adding cleaners after seeding leaves every `DirtyCell` on its draw: the `DirtyCell`s of the
      final state are exactly those seeded, with ids below the number seeded. */
  lemma SeededDirtStays(dirty: Sim, s: Sim, placed: seq<Pos>)
    requires DirtyLayout(dirty, placed)
    requires forall a | a in s.pos :: a in s.schedule
    requires |s.schedule| >= |placed|
    requires forall t | 0 <= t < |s.schedule| ::
      if t < |dirty.schedule| then s.schedule[t] == dirty.schedule[t] else s.schedule[t].kind == CleanerAgent
    requires forall a | a in dirty.pos :: a in s.pos && s.pos[a] == dirty.pos[a]
    ensures forall a | a in s.pos && a.kind == DirtyCell :: 0 <= a.id < |placed| && s.pos[a] == placed[a.id]
    ensures forall t | 0 <= t < |placed| :: Agent(t, DirtyCell) in s.pos && s.pos[Agent(t, DirtyCell)] == placed[t]
  {
    forall a | a in s.pos && a.kind == DirtyCell ensures 0 <= a.id < |placed| && s.pos[a] == placed[a.id] {
      var t :| 0 <= t < |s.schedule| && s.schedule[t] == a;
      assert t < |placed| && a == dirty.schedule[t];
    }
    forall t | 0 <= t < |placed| ensures Agent(t, DirtyCell) in s.pos && s.pos[Agent(t, DirtyCell)] == placed[t] {
      assert dirty.schedule[t] == Agent(t, DirtyCell);
    }
  }

  /** Dirty cells standing on distinct positions do not share a cell. */
  lemma InitialDirtApart(s: Sim, placed: seq<Pos>)
    requires NoDup(placed)
    requires forall a | a in s.pos && a.kind == DirtyCell :: 0 <= a.id < |placed| && s.pos[a] == placed[a.id]
    ensures SeparateDirt(s)
  {
  }

  /** The initial schedule holds exactly `n` `DirtyCell`s. */
  lemma {:induction false} InitialCounts(sched: seq<Agent>, n: nat)
    requires n <= |sched|
    requires forall t | 0 <= t < |sched| :: sched[t].kind == (if t < n then DirtyCell else CleanerAgent)
    ensures CountDirty(sched) == n
    decreases |sched|
  {
    if sched != [] {
      var m := if n == 0 then 0 else n - 1;
      InitialCounts(sched[1..], m);
    }
  }

  /** `CleanerModel.step`: `pCleanCells` and `running` from the count left by the previous step,
      then the live recount of `DirtyCell`s, then `datacollector.collect`, then one activation
      pass in the shuffled order `order` with neighbour draws `choices`. */
  function Step(s: Sim, order: seq<Agent>, choices: seq<NeighbourIndex>): (r: Sim)
    requires Consistent(s)
    requires multiset(order) == multiset(s.schedule)
    requires |choices| == |order|
    ensures Consistent(r)
  {
    var pClean := CleanFraction(s.width, s.height, s.numDirtyCells);
    var counted := s.(pCleanCells := pClean,
                      running := s.numDirtyCells > 0,
                      numDirtyCells := CountDirty(s.schedule));
    var collected := counted.(history := counted.history + [Metrics(counted.totalAgentMovements, pClean)]);
    ActivateAll(collected, order, choices)
  }

  /** A step keeps grid and schedule consistent, keeps `DirtyCell`s apart, adds no entity,
      removes no cleaner and moves no `DirtyCell`. */
  lemma StepConsistent(s: Sim, order: seq<Agent>, choices: seq<NeighbourIndex>)
    requires Consistent(s)
    requires multiset(order) == multiset(s.schedule)
    requires |choices| == |order|
    ensures Consistent(Step(s, order, choices))
    ensures SeparateDirt(s) ==> SeparateDirt(Step(s, order, choices))
    ensures forall b | b in Step(s, order, choices).schedule :: b in s.schedule
    ensures forall b | b in s.schedule && b.kind == CleanerAgent :: b in Step(s, order, choices).schedule
    ensures forall b | b in Step(s, order, choices).pos && b.kind == DirtyCell ::
      b in s.pos && Step(s, order, choices).pos[b] == s.pos[b]
  {
    var pClean := CleanFraction(s.width, s.height, s.numDirtyCells);
    var counted := s.(pCleanCells := pClean, running := s.numDirtyCells > 0, numDirtyCells := CountDirty(s.schedule));
    var collected := counted.(history := counted.history + [Metrics(counted.totalAgentMovements, pClean)]);
    ActivateAllEffect(collected, order, choices);
  }

  /** The one-step lag: `pCleanCells` and `running` come from the dirty count as it stood
      before this step's recount, and the row collected holds that `pCleanCells` with the
      movement count from before this step's activations. */
  lemma StepMetrics(s: Sim, order: seq<Agent>, choices: seq<NeighbourIndex>)
    requires Consistent(s)
    requires multiset(order) == multiset(s.schedule)
    requires |choices| == |order|
    ensures Step(s, order, choices).running <==> s.numDirtyCells > 0
    ensures Step(s, order, choices).pCleanCells == CleanFraction(s.width, s.height, s.numDirtyCells)
    ensures Step(s, order, choices).history
      == s.history + [Metrics(s.totalAgentMovements, CleanFraction(s.width, s.height, s.numDirtyCells))]
    ensures Step(s, order, choices).width == s.width && Step(s, order, choices).height == s.height
  {
    var pClean := CleanFraction(s.width, s.height, s.numDirtyCells);
    var counted := s.(pCleanCells := pClean, running := s.numDirtyCells > 0, numDirtyCells := CountDirty(s.schedule));
    var collected := counted.(history := counted.history + [Metrics(counted.totalAgentMovements, pClean)]);
    ActivateAllEffect(collected, order, choices);
  }

  /** Because the recount happens before the activations, which decrement the counter once per
      `DirtyCell` they remove, after any step the counter equals the live `DirtyCell` count,
      and that count never grows. */
  lemma StepRecount(s: Sim, order: seq<Agent>, choices: seq<NeighbourIndex>)
    requires Consistent(s)
    requires multiset(order) == multiset(s.schedule)
    requires |choices| == |order|
    ensures Step(s, order, choices).numDirtyCells == CountDirty(Step(s, order, choices).schedule)
    ensures CountDirty(Step(s, order, choices).schedule) <= CountDirty(s.schedule)
  {
    var pClean := CleanFraction(s.width, s.height, s.numDirtyCells);
    var counted := s.(pCleanCells := pClean, running := s.numDirtyCells > 0, numDirtyCells := CountDirty(s.schedule));
    var collected := counted.(history := counted.history + [Metrics(counted.totalAgentMovements, pClean)]);
    ActivateAllEffect(collected, order, choices);
  }

  /** Every cleaner is activated once per step and either cleans or moves: the movement counter
      never falls, and grows by the number of cleaners minus the number of `DirtyCell`s cleaned. */
  lemma StepMovements(s: Sim, order: seq<Agent>, choices: seq<NeighbourIndex>)
    requires Consistent(s)
    requires multiset(order) == multiset(s.schedule)
    requires |choices| == |order|
    ensures Step(s, order, choices).totalAgentMovements >= s.totalAgentMovements
    ensures Step(s, order, choices).totalAgentMovements - s.totalAgentMovements
      == CountKind(s.schedule, CleanerAgent)
         - (CountDirty(s.schedule) - CountDirty(Step(s, order, choices).schedule))
  {
    var pClean := CleanFraction(s.width, s.height, s.numDirtyCells);
    var counted := s.(pCleanCells := pClean, running := s.numDirtyCells > 0, numDirtyCells := CountDirty(s.schedule));
    var collected := counted.(history := counted.history + [Metrics(counted.totalAgentMovements, pClean)]);
    ActivateAllEffect(collected, order, choices);
    ShuffleActivatesEveryCleaner(order, s.schedule);
  }

  /** The counter agrees with the live count and does not exceed the number of cells.
      `__init__` establishes this for `pCells` in [0, 1] and every step keeps it. */
  ghost predicate Tracked(s: Sim) {
    && Consistent(s)
    && s.numDirtyCells == CountDirty(s.schedule)
    && s.numDirtyCells <= s.width * s.height
  }

  /** Construction with a non-negative `pCells` and `step` both leave the counter tracked,
      and from a tracked state `pCleanCells` lies in [0, 1]. */
  lemma TrackedPreserved(s: Sim, order: seq<Agent>, choices: seq<NeighbourIndex>)
    requires Tracked(s)
    requires multiset(order) == multiset(s.schedule)
    requires |choices| == |order|
    ensures Tracked(Step(s, order, choices))
    ensures 0.0 <= Step(s, order, choices).pCleanCells <= 1.0
  {
    StepConsistent(s, order, choices);
    StepRecount(s, order, choices);
    StepMetrics(s, order, choices);
    CleanFractionBounds(s.width, s.height, s.numDirtyCells, s.numDirtyCells);
  }

  /** Once a step reports `running == false` from a tracked state, the next step does too. */
  lemma StoppedIsTerminal(s: Sim, order: seq<Agent>, choices: seq<NeighbourIndex>,
                          order2: seq<Agent>, choices2: seq<NeighbourIndex>)
    requires Tracked(s)
    requires multiset(order) == multiset(s.schedule)
    requires |choices| == |order|
    requires !Step(s, order, choices).running
    requires multiset(order2) == multiset(Step(s, order, choices).schedule)
    requires |choices2| == |order2|
    ensures !Step(Step(s, order, choices), order2, choices2).running
  {
    var r := Step(s, order, choices);
    StepMetrics(s, order, choices);
    StepRecount(s, order, choices);
    StepMetrics(r, order2, choices2);
  }

  /** Between two successive steps from a tracked state `pCleanCells` never falls. */
  lemma CleanFractionMonotone(s: Sim, order: seq<Agent>, choices: seq<NeighbourIndex>,
                              order2: seq<Agent>, choices2: seq<NeighbourIndex>)
    requires Tracked(s)
    requires multiset(order) == multiset(s.schedule)
    requires |choices| == |order|
    requires multiset(order2) == multiset(Step(s, order, choices).schedule)
    requires |choices2| == |order2|
    ensures Step(s, order, choices).pCleanCells <= Step(Step(s, order, choices), order2, choices2).pCleanCells
  {
    var r := Step(s, order, choices);
    StepMetrics(s, order, choices);
    StepRecount(s, order, choices);
    StepMetrics(r, order2, choices2);
    CleanFractionBounds(s.width, s.height, r.numDirtyCells, s.numDirtyCells);
  }

  /** The lag made visible: a step that starts with no `DirtyCell` left reports
      `running == false`, yet every cleaner still moves once during it. */
  lemma LastStepStillMoves(s: Sim, order: seq<Agent>, choices: seq<NeighbourIndex>)
    requires Tracked(s) && CountDirty(s.schedule) == 0
    requires multiset(order) == multiset(s.schedule)
    requires |choices| == |order|
    ensures !Step(s, order, choices).running
    ensures Step(s, order, choices).totalAgentMovements
      == s.totalAgentMovements + CountKind(s.schedule, CleanerAgent)
  {
    StepMetrics(s, order, choices);
    StepRecount(s, order, choices);
    StepMovements(s, order, choices);
  }

  /** A state without live `DirtyCell`s steps to a tracked state, whatever its counter says.
      After a negative `pCells` construction leaves no `DirtyCell`, so every state from the
      first step on is tracked. */
  lemma NoDirtStepTracked(s: Sim, order: seq<Agent>, choices: seq<NeighbourIndex>)
    requires Consistent(s) && CountDirty(s.schedule) == 0
    requires multiset(order) == multiset(s.schedule)
    requires |choices| == |order|
    ensures Tracked(Step(s, order, choices))
  {
    StepRecount(s, order, choices);
    StepMetrics(s, order, choices);
  }

  /** The one case where `pCleanCells` falls: a negative counter with no `DirtyCell`, as
      construction leaves it when `int(M * N * pCells) < 0`, makes the first step report a
      clean fraction above 1 and the second step exactly 1. */
  lemma NegativeCountFalls(s: Sim, order: seq<Agent>, choices: seq<NeighbourIndex>,
                           order2: seq<Agent>, choices2: seq<NeighbourIndex>)
    requires Consistent(s) && CountDirty(s.schedule) == 0 && s.numDirtyCells < 0
    requires multiset(order) == multiset(s.schedule)
    requires |choices| == |order|
    requires multiset(order2) == multiset(Step(s, order, choices).schedule)
    requires |choices2| == |order2|
    ensures Step(s, order, choices).pCleanCells > 1.0
    ensures Step(Step(s, order, choices), order2, choices2).pCleanCells == 1.0
  {
    var r := Step(s, order, choices);
    StepMetrics(s, order, choices);
    StepRecount(s, order, choices);
    StepMetrics(r, order2, choices2);
    CleanFractionOutside(s.width, s.height, s.numDirtyCells);
    CleanFractionOutside(r.width, r.height, r.numDirtyCells);
  }
}

=== FILE: seqs.dfy ===
/** Small sequence toolkit shared by the grid, the scheduler and the model:
    Python's `list.remove`, duplicate-freedom and first-occurrence deduplication. */
module Seqs {

  datatype Option<+T> = None | Some(value: T)

  /** No element occurs twice. */
  predicate NoDup<T(==)>(s: seq<T>) {
    forall i, j | 0 <= i < j < |s| :: s[i] != s[j]
  }

  /** Python's `list.remove(x)` (and `del d[key]` on an insertion-ordered dict):
      drops the first occurrence of `x`; a sequence without `x` is returned as is. */
  function Remove<T(==)>(s: seq<T>, x: T): (r: seq<T>)
    ensures multiset(r) == multiset(s) - multiset{x}
    ensures |r| == if x in s then |s| - 1 else |s|
    decreases |s|
  {
    if s == [] then []
    else if s[0] == x then
      assert s == [s[0]] + s[1..];
      s[1..]
    else
      assert s == [s[0]] + s[1..];
      [s[0]] + Remove(s[1..], x)
  }

  lemma ConsNoDup<T>(h: T, t: seq<T>)
    requires NoDup(t) && h !in t
    ensures NoDup([h] + t)
  {
  }

  /** On a duplicate-free sequence, removing `x` removes exactly `x`
      and keeps the sequence duplicate-free. */
  lemma {:induction false} RemoveNoDup<T>(s: seq<T>, x: T)
    requires NoDup(s)
    ensures NoDup(Remove(s, x))
    ensures forall y :: y in Remove(s, x) <==> y in s && y != x
    decreases |s|
  {
    if s == [] {
    } else {
      assert s == [s[0]] + s[1..];
      assert NoDup(s[1..]) by {
        forall i, j | 0 <= i < j < |s[1..]| ensures s[1..][i] != s[1..][j] {
          assert s[1..][i] == s[i + 1] && s[1..][j] == s[j + 1];
        }
      }
      assert s[0] !in s[1..] by {
        forall j | 0 <= j < |s[1..]| ensures s[1..][j] != s[0] {
          assert s[1..][j] == s[j + 1];
        }
      }
      if s[0] == x {
      } else {
        RemoveNoDup(s[1..], x);
        ConsNoDup(s[0], Remove(s[1..], x));
      }
    }
  }

  /** The distinct elements of `s` in order of first occurrence. */
  function Distinct<T(==)>(s: seq<T>): (r: seq<T>)
    decreases |s|
  {
    if s == [] then []
    else
      var d := Distinct(s[..|s| - 1]);
      if s[|s| - 1] in d then d else d + [s[|s| - 1]]
  }

  /** `Distinct` keeps every element, invents none, and repeats none. */
  lemma {:induction false} DistinctSpec<T>(s: seq<T>)
    ensures NoDup(Distinct(s))
    ensures forall y :: y in Distinct(s) <==> y in s
    decreases |s|
  {
    if s != [] {
      var init := s[..|s| - 1];
      DistinctSpec(init);
      assert s == init + [s[|s| - 1]];
      var d := Distinct(init);
      if s[|s| - 1] !in d {
        var r := d + [s[|s| - 1]];
        forall i, j | 0 <= i < j < |r| ensures r[i] != r[j] {
          if j == |d| {
            assert r[i] == d[i];
          } else {
            assert r[i] == d[i] && r[j] == d[j];
          }
        }
      }
    }
  }

  /** Deduplicating a longer sequence only extends the result. */
  lemma {:induction false} DistinctPrefix<T>(s: seq<T>, k: nat)
    requires k <= |s|
    ensures Distinct(s[..k]) <= Distinct(s)
    decreases |s| - k
  {
    if k < |s| {
      DistinctPrefix(s, k + 1);
      assert s[..k + 1][..k] == s[..k];
    } else {
      assert s[..k] == s;
    }
  }
}

=== FILE: space.dfy ===
/** The toroidal multi-occupancy grid the simulation is built on (`space.MultiGrid(M, N, True)`):
    cells addressed by (x, y) with 0 <= x < width and 0 <= y < height, each holding an ordered list
    of occupants, and the 8-cell Moore neighbourhood wrapped around both edges. */
module Space {
  import opened Seqs

  datatype Pos = Pos(x: int, y: int)

  /** A grid maps each cell to its occupants in placement order; a missing key is an empty cell. */
  type Grid<A> = map<Pos, seq<A>>

  predicate InBounds(p: Pos, width: int, height: int) {
    0 <= p.x < width && 0 <= p.y < height
  }

  /** The index `random.choice` draws from the eight-cell neighbourhood. */
  type NeighbourIndex = i: nat | i < 8

  /** The wrapped neighbourhood is only free of repeats on grids at least 3 cells wide and high. */
  predicate ValidDims(width: int, height: int) {
    width >= 3 && height >= 3
  }

  /** Torus adjustment of one coordinate: Python's `%` with a positive modulus,
      which agrees with Dafny's Euclidean `%`. */
  function Wrap(v: int, size: int): int
    requires size > 0
  {
    v % size
  }

  /** The cell one step after `v` on a ring of `size` cells. */
  function Next(v: int, size: int): int {
    if v == size - 1 then 0 else v + 1
  }

  /** `b` equals `a` or lies one step from it, either way round the ring. */
  predicate RingAdjacent(a: int, b: int, size: int) {
    b == a || b == Next(a, size) || a == Next(b, size)
  }

  /** Reference definition of the Moore neighbourhood on the torus, without wrapping arithmetic:
      an in-bounds cell other than the centre that is ring-adjacent in both coordinates. */
  predicate MooreNeighbour(c: Pos, p: Pos, width: int, height: int) {
    && InBounds(p, width, height)
    && p != c
    && RingAdjacent(c.x, p.x, width)
    && RingAdjacent(c.y, p.y, height)
  }

  function Shift(c: Pos, dx: int, dy: int, width: int, height: int): Pos
    requires width > 0 && height > 0
  {
    Pos(Wrap(c.x + dx, width), Wrap(c.y + dy, height))
  }

  /** `get_neighborhood(pos, moore=True, include_center=False)` on the torus: the eight
      offsets in {-1, 0, 1}^2 other than (0, 0), each wrapped. Which one is picked is left to
      an index oracle, so the listing order carries no meaning. */
  function Neighbourhood(c: Pos, width: int, height: int): (r: seq<Pos>)
    requires ValidDims(width, height)
  {
    [ Shift(c, -1, -1, width, height), Shift(c, -1, 0, width, height), Shift(c, -1, 1, width, height),
      Shift(c, 0, -1, width, height), Shift(c, 0, 1, width, height),
      Shift(c, 1, -1, width, height), Shift(c, 1, 0, width, height), Shift(c, 1, 1, width, height) ]
  }

  /** Wrapping a coordinate moved by at most one cell. */
  lemma WrapStep(v: int, d: int, size: int)
    requires size >= 3 && 0 <= v < size && -1 <= d <= 1
    ensures Wrap(v + d, size) == if v + d < 0 then size - 1 else if v + d == size then 0 else v + d
  {
  }

  /** On one axis, the three wrapped coordinates around `v` are distinct, in range, and are
      exactly the ring-adjacent ones. */
  lemma RingAxis(v: int, size: int)
    requires size >= 3 && 0 <= v < size
    ensures Wrap(v + 0, size) == v
    ensures Wrap(v + 1, size) == Next(v, size)
    ensures Next(Wrap(v + -1, size), size) == v
    ensures 0 <= Wrap(v + -1, size) < size && 0 <= Next(v, size) < size
    ensures Wrap(v + -1, size) != v && Next(v, size) != v && Wrap(v + -1, size) != Next(v, size)
    ensures forall b | 0 <= b < size ::
      RingAdjacent(v, b, size) <==> b == Wrap(v + -1, size) || b == v || b == Next(v, size)
  {
    WrapStep(v, -1, size);
    WrapStep(v, 0, size);
    WrapStep(v, 1, size);
  }

  /** The neighbourhood is exactly the Moore neighbourhood of the reference definition
      (both directions), and lists each of its eight cells once. */
  lemma NeighbourhoodIsMoore(c: Pos, width: int, height: int)
    requires ValidDims(width, height) && InBounds(c, width, height)
    ensures NoDup(Neighbourhood(c, width, height))
    ensures forall p :: p in Neighbourhood(c, width, height) <==> MooreNeighbour(c, p, width, height)
  {
    RingAxis(c.x, width);
    RingAxis(c.y, height);
    var nb := Neighbourhood(c, width, height);
    forall p | MooreNeighbour(c, p, width, height)
      ensures p in nb
    {
      var dx := if p.x == c.x then 0 else if p.x == Next(c.x, width) then 1 else -1;
      var dy := if p.y == c.y then 0 else if p.y == Next(c.y, height) then 1 else -1;
      assert p == Shift(c, dx, dy, width, height);
    }
  }

  // ---- MultiGrid cell operations ----

  /** `get_cell_list_contents([p])`. */
  function Cell<A>(g: Grid<A>, p: Pos): seq<A> {
    if p in g then g[p] else []
  }

  /** `is_cell_empty(p)`. */
  predicate IsCellEmpty<A>(g: Grid<A>, p: Pos) {
    Cell(g, p) == []
  }

  /** `place_agent(a, p)`: appends `a` to the occupant list of `p`; no other cell changes. */
  function PlaceAgent<A>(g: Grid<A>, p: Pos, a: A): (r: Grid<A>)
    ensures Cell(r, p) == Cell(g, p) + [a]
    ensures forall q | q != p :: Cell(r, q) == Cell(g, q)
  {
    g[p := Cell(g, p) + [a]]
  }

  /** `remove_agent(a)` for an agent standing at `p`: drops it from that cell's list;
      no other cell changes. */
  function RemoveAgent<A(==)>(g: Grid<A>, p: Pos, a: A): (r: Grid<A>)
    ensures multiset(Cell(r, p)) == multiset(Cell(g, p)) - multiset{a}
    ensures forall q | q != p :: Cell(r, q) == Cell(g, q)
  {
    g[p := Remove(Cell(g, p), a)]
  }

  /** `move_agent(a, to)` for an agent standing at `from`: removal, then placement. */
  function MoveAgent<A(==)>(g: Grid<A>, from: Pos, to: Pos, a: A): (r: Grid<A>)
    requires from != to
    ensures multiset(Cell(r, from)) == multiset(Cell(g, from)) - multiset{a}
    ensures Cell(r, to) == Cell(g, to) + [a]
    ensures forall q | q != from && q != to :: Cell(r, q) == Cell(g, q)
  {
    PlaceAgent(RemoveAgent(g, from, a), to, a)
  }
}

=== FILE: state.dfy ===
/** The state of a `CleanerModel`: the grid, the scheduler's live entities, each placed entity's
    position, the counters and the metrics history, with the consistency invariant that ties the
    grid to the schedule. */
module State {
  import opened Seqs
  import opened Space

  /** The two entity classes; the source tells them apart with `isinstance`. */
  datatype Kind = DirtyCell | CleanerAgent

  /** An entity: its `unique_id` and its class. */
  datatype Agent = Agent(id: int, kind: Kind)

  /** One row the data collector records: `totalAgentMovements` and `pCleanCells`. */
  datatype Metrics = Metrics(agentMovements: int, pCleanCells: real)

  datatype Sim = Sim(
    width: int,                   // M
    height: int,                  // N
    numAgents: nat,
    pCells: real,
    grid: Grid<Agent>,            // MultiGrid cell lists
    pos: map<Agent, Pos>,         // agent.pos of every placed entity
    schedule: seq<Agent>,         // RandomActivation's live entities, in insertion order
    numDirtyCells: int,
    totalAgentMovements: int,
    pCleanCells: real,
    running: bool,
    history: seq<Metrics>)        // rows collected so far

  /** The schedule holds each entity once, and exactly the scheduled entities have a position. */
  ghost predicate ScheduleMatchesPos(s: Sim) {
    && NoDup(s.schedule)
    && (forall a :: a in s.pos <==> a in s.schedule)
  }

  /** Every placed entity stands in bounds, inside its own cell's list. */
  ghost predicate PlacedInOwnCell(s: Sim) {
    forall a | a in s.pos :: InBounds(s.pos[a], s.width, s.height) && a in Cell(s.grid, s.pos[a])
  }

  /** Every occupant of every cell is placed, and placed there. */
  ghost predicate OccupantsPlaced(s: Sim) {
    forall p, a | a in Cell(s.grid, p) :: a in s.pos && s.pos[a] == p
  }

  /** No cell lists an occupant twice. */
  ghost predicate CellsNoDup(s: Sim) {
    forall p | p in s.grid :: NoDup(s.grid[p])
  }

  /** Grid/schedule consistency: the dimensions admit the wrapped neighbourhood, and the four
      parts above hold. */
  ghost predicate Consistent(s: Sim) {
    && ValidDims(s.width, s.height)
    && ScheduleMatchesPos(s)
    && PlacedInOwnCell(s)
    && OccupantsPlaced(s)
    && CellsNoDup(s)
  }

  /** No two `DirtyCell`s share a cell. */
  ghost predicate SeparateDirt(s: Sim) {
    forall a, b | a in s.pos && b in s.pos && a.kind == DirtyCell && b.kind == DirtyCell && a != b ::
      s.pos[a] != s.pos[b]
  }

  /** The entity is registered in some cell of the grid. */
  ghost predicate OnGrid(s: Sim, a: Agent) {
    exists p :: a in Cell(s.grid, p)
  }

  /** Under consistency an entity is in the schedule exactly when it is on the grid. */
  lemma ScheduledIffOnGrid(s: Sim, a: Agent)
    requires Consistent(s)
    ensures a in s.schedule <==> OnGrid(s, a)
  {
  }

  /** Number of entities of kind `k` in `s`. */
  function CountKind(s: seq<Agent>, k: Kind): (n: nat)
    ensures n <= |s|
  {
    if s == [] then 0
    else (if s[0].kind == k then 1 else 0) + CountKind(s[1..], k)
  }

  /** Number of live `DirtyCell`s: the recount of `CleanerModel.step`. */
  function CountDirty(s: seq<Agent>): nat {
    CountKind(s, DirtyCell)
  }

  lemma {:induction false} CountKindZero(s: seq<Agent>, k: Kind)
    ensures CountKind(s, k) == 0 <==> forall a | a in s :: a.kind != k
    decreases |s|
  {
    if s != [] {
      CountKindZero(s[1..], k);
      assert s == [s[0]] + s[1..];
    }
  }

  /** Removing one present entity lowers its own kind's count by one and no other. */
  lemma {:induction false} CountKindRemove(s: seq<Agent>, x: Agent, k: Kind)
    requires x in s
    ensures CountKind(Remove(s, x), k) == CountKind(s, k) - (if x.kind == k then 1 else 0)
    decreases |s|
  {
    if s[0] != x {
      CountKindRemove(s[1..], x, k);
      var r := Remove(s, x);
      assert r[1..] == Remove(s[1..], x);
    }
  }

  /** Counts depend only on the multiset of entities: any activation order of a schedule
      holds as many entities of each kind as the schedule does. */
  lemma {:induction false} CountKindPermutation(a: seq<Agent>, b: seq<Agent>, k: Kind)
    requires multiset(a) == multiset(b)
    ensures CountKind(a, k) == CountKind(b, k)
    decreases |a|
  {
    if a == [] {
      assert |b| == |multiset(b)| == 0;
    } else {
      var x := a[0];
      assert a == [x] + a[1..];
      assert x in multiset(b);
      assert multiset(a[1..]) == multiset(Remove(b, x));
      CountKindPermutation(a[1..], Remove(b, x), k);
      CountKindRemove(b, x, k);
    }
  }

  /** `pCleanCells` for a dirty count `d` on an M by N grid, as an exact ratio. */
  function CleanFraction(width: int, height: int, d: int): real
    requires width > 0 && height > 0
  {
    ((height * width) - d) as real / (height * width) as real
  }

  /** With a dirty count between 0 and the number of cells, the clean fraction lies in [0, 1];
      and it never rises when the count grows. */
  lemma CleanFractionBounds(width: int, height: int, d: int, e: int)
    requires width > 0 && height > 0
    ensures 0 <= d <= width * height ==> 0.0 <= CleanFraction(width, height, d) <= 1.0
    ensures d <= e ==> CleanFraction(width, height, e) <= CleanFraction(width, height, d)
  {
    var c := (height * width) as real;
    assert c > 0.0 by {
      assert height * width >= width;
    }
    assert CleanFraction(width, height, d) == (c - d as real) / c;
    assert CleanFraction(width, height, e) == (c - e as real) / c;
    if 0 <= d <= width * height {
      assert 0.0 <= c - d as real <= c;
      RatioInUnit(c - d as real, c);
    }
    if d <= e {
      RatioMonotone(c - e as real, c - d as real, c);
    }
  }

  /** A negative dirty count, as a negative `pCells` produces, gives a clean fraction above 1;
      a zero count gives exactly 1. */
  lemma CleanFractionOutside(width: int, height: int, d: int)
    requires width > 0 && height > 0
    ensures d < 0 ==> CleanFraction(width, height, d) > 1.0
    ensures d == 0 ==> CleanFraction(width, height, d) == 1.0
  {
    var c := (height * width) as real;
    assert c > 0.0 by {
      assert height * width >= width;
    }
    assert CleanFraction(width, height, d) == (c - d as real) / c;
    if d < 0 {
      RatioAboveOne(c - d as real, c);
    } else if d == 0 {
      RatioOfWhole(c);
    }
  }

  /** A quantity above a positive whole, divided by that whole, exceeds 1. */
  lemma RatioAboveOne(x: real, c: real)
    requires c > 0.0 && x > c
    ensures x / c > 1.0
  {
    var q := x / c;
    assert q * c == x;
    assert q <= 1.0 ==> q * c <= 1.0 * c;
  }

  /** A positive whole divided by itself is 1. */
  lemma RatioOfWhole(c: real)
    requires c > 0.0
    ensures c / c == 1.0
  {
    var q := c / c;
    assert q * c == c;
    assert q < 1.0 ==> q * c < 1.0 * c;
    assert q > 1.0 ==> q * c > 1.0 * c;
  }

  /** A quantity between 0 and a positive whole, divided by that whole, lies in [0, 1]. */
  lemma RatioInUnit(x: real, c: real)
    requires c > 0.0 && 0.0 <= x <= c
    ensures 0.0 <= x / c <= 1.0
  {
    var q := x / c;
    assert q * c == x;
    assert q < 0.0 ==> q * c < 0.0;
    assert q > 1.0 ==> q * c > 1.0 * c;
  }

  /** Division by a positive number keeps order. */
  lemma RatioMonotone(x: real, y: real, c: real)
    requires c > 0.0 && x <= y
    ensures x / c <= y / c
  {
    var qx, qy := x / c, y / c;
    assert qx * c == x && qy * c == y;
    assert (qx - qy) * c == x - y;
    assert qx > qy ==> (qx - qy) * c > 0.0;
  }
}
